=== FILE: README.md ===
# Bazzar marketplace server: account security, product listing and bearer authentication

This project models the core of the Bazzar e-commerce server in Dafny and proves properties of the model. The core has three parts:

- **The account-security state machine** of the users controller:
  - registration with an e-mailed one-time code;
  - e-mail verification;
  - login with failed-attempt counting and a 24-hour lockout;
  - the login code that gates the session token;
  - the profile and password updates.
- **The pure logic of the products controller**:
  - the filter criteria, paging and sort that the listing builds from its query string;
  - the role gate, slug and server-forced fields of product creation.
- **The `verifyToken` middleware**: it parses `Authorization: Bearer <token>` and picks between 401, 403 and `next()`.

Each handler is a pure transition. The user collection is a `map<Email, User>`. A handler takes the clock (`now`, in milliseconds) and the values drawn from outside as parameters:

- the four random bytes of a code;
- the bcrypt salt;
- the id the database assigns;
- whether the mail was delivered.

It returns a `Step`, which holds the reply, the collection afterwards and the mail it tried to send. The code is issued by the same computation as `crypto.randomBytes(4).toString('hex').toUpperCase()`, and is proved to be eight upper-case hexadecimal characters that decode back to the bytes. bcrypt is modelled as an idealised, collision-free hash that records its salt. The session token is modelled as the claims it carries plus `iat`/`exp` in seconds, seven days apart.

Behaviours of the code are kept as written:

- Registration and login share one `verificationCode`/`codeExpires` field, so a login code also verifies the e-mail address.
- Login never reads `isVerified`.
- A successful login leaves `lockUntil` in place.
- An absent submitted code equals an absent stored code, and an absent expiry never counts as past.
- A failed mail delivery reports 500 after the record has already been written.

The model follows the code where it departs from the intended account life cycle:

- Login is meant to be reachable only from a verified account. The code has no such check.
- The code is described to users as "8-character". It is upper-case hexadecimal, not general alphanumeric.
- A second verification is meant to fail. That holds for the same code, but a request with no code succeeds again (see Findings).

## Model

| member | source | states |
|---|---|---|
| Numbers.CeilDiv | controllers/users.controller.js:129 | `Math.ceil(a / b)` for integers, characterised for either sign of `b` as the least/greatest multiple bound |
| Text.ToUpper | controllers/users.controller.js:35 | `toUpperCase` keeps the length and maps each character to its upper-case form |
| Text.ToLower | controllers/products.controller.js:95 | `toLowerCase` keeps the length and maps each character to its lower-case form |
| Text.Decimal | controllers/products.controller.js:95 | `String(Date.now())` in canonical form: a leading minus exactly for a negative value, then the digits with no leading zero |
| Text.DecimalRoundTrip | controllers/products.controller.js:95 | the decimal text of a timestamp parses back to the same integer |
| Otp.HexLower | controllers/users.controller.js:35 | `toString('hex')` yields two lower-case hex characters per byte |
| Otp.Issue | controllers/users.controller.js:35 | every generated code is exactly 8 upper-case hexadecimal characters |
| Otp.IssueRoundTrip | controllers/users.controller.js:35 | a code decodes back to the four random bytes it came from |
| Otp.IssueInjective | controllers/users.controller.js:147 | different random bytes never give the same code |
| Password.Hash | controllers/users.controller.js:33 | `bcrypt.hash(p, 10)` records cost 10 and the drawn salt |
| Password.HashMatches | controllers/users.controller.js:133 | `bcrypt.compare` accepts a password against its own hash under any salt, and no other password |
| Session.Sign | controllers/users.controller.js:199-203 | the token carries exactly the given claims, `iat` is the current second, `exp` is seven days later |
| Session.SignedLive | controllers/users.controller.js:202 | a fresh token is still live at any instant up to seven days minus one second later |
| Users.Status | controllers/users.controller.js:23-269 | each reply maps to its HTTP status: 201 only for registration, 200 for the five successes, 400 exactly for a duplicate e-mail, a mismatched or expired code and an update with no changes, 401 for bad passwords, 403 for locks, 404 for unknown users, 500 for thrown errors |
| Users.Register | controllers/users.controller.js:23-73 | a known e-mail gives "already in use" and leaves the store unchanged. Otherwise exactly one record is added, with the listed fields: unverified, customer, zero attempts, no lock, the password hashed at cost 10 with the drawn salt, an 8-hex-char code and expiry now+600000. Other records are unchanged, the code is mailed, and a failed mail gives 500 with the record kept |
| Users.VerifyOtp | controllers/users.controller.js:80-110 | unknown e-mail gives 404; a code mismatch is reported before expiry; expiry only when now > codeExpires; success sets verified and removes code and expiry, nothing else changes |
| Users.RemainingHours | controllers/users.controller.js:129 | the reported hours are `ceil((lockUntil - now) / 3600000)`, at least 1 |
| Users.Login | controllers/users.controller.js:117-170 | never returns a session. A locked account gets 403 with no change. A wrong password raises the counter or, at the 5th failure, locks for 24h and resets it to 0, reporting `5 - n` attempts left. A right password stores a new code with expiry now+300000 and zero attempts, and leaves lock and verification alone. Other records are unchanged |
| Users.VerifyLoginOtp | controllers/users.controller.js:178-210 | unknown user and code mismatch both give "Invalid or expired code" before expiry is looked at. Success removes code and expiry only. The token claims are exactly {id, email, role}, seven days apart. The returned user projection is {id, name, email, role} |
| Users.VerifyLoginOtpStrict | controllers/users.controller.js:186-192 | corrected check: a session only for a present submitted code equal to the stored one and unexpired; agrees with the original whenever a code is submitted |
| Users.ApplyProfile | controllers/users.controller.js:224-228 | each truthy field among name/phone/image/address overwrites the stored one; every other field is unchanged |
| Users.UpdateProfile | controllers/users.controller.js:217-239 | only the record with the session's id changes and only in the supplied fields; "No changes made" exactly when nothing was modified, in particular when no field is truthy |
| Users.UpdatePassword | controllers/users.controller.js:245-265 | no record with the id gives 500; a record with the id whose hash does not match the old password gives 401 with no change; otherwise the hash is replaced only where the old password matches |
| UserProperties.HandlePreservesConsistent | controllers/users.controller.js:23-269 | every handler keeps: record filed under its own e-mail, code and expiry set together, counter below 5, stored code well-formed |
| UserProperties.HandlePreservesIdsUnique | controllers/users.controller.js:230-233 | every handler keeps ids unique when the database assigns a fresh id at insertion |
| UserProperties.RunPreservesConsistent | controllers/users.controller.js:135-144 | the record invariants hold after any sequence of requests at any times |
| UserProperties.AttemptsStayBounded | controllers/users.controller.js:136-144 | starting from any collection that satisfies the invariants (the empty one does), after any requests every account's `loginAttempts` is within 0..4 and its stored code, if any, is 8 upper-case hex characters |
| UserProperties.WrongAttemptsCount | controllers/users.controller.js:136-143 | wrong passwords below the threshold only increment the counter and change nothing else |
| UserProperties.FiveFailuresLock | controllers/users.controller.js:128-140 | five consecutive wrong passwords lock the account until the fifth attempt + 24h with the counter reset; a sixth login during the lock is refused even with the right password |
| UserProperties.RegisterToSession | controllers/users.controller.js:23-210 | register, verify with the mailed code, log in, verify the mailed login code: the session names the registered id, e-mail and the customer role; the corrected check accepts the same run |
| UserProperties.VerifyOnce | controllers/users.controller.js:91-105 | a code that verified once is a mismatch the second time |
| UserProperties.ExpiryIsStrict | controllers/users.controller.js:95-97 | a code submitted at exactly its expiry is accepted, one millisecond later it has expired |
| UserProperties.LoginCodeVerifiesEmail | controllers/users.controller.js:150-153 | a login code, within five minutes, also verifies the e-mail address |
| UserProperties.LoginCodeReplacesRegistrationCode | controllers/users.controller.js:150-153 | after a successful password check any earlier pending code no longer verifies |
| UserProperties.LoginIgnoresVerification | controllers/users.controller.js:117-145 | the login reply does not depend on `isVerified` |
| UserProperties.AbsentOtpIssuesSession | controllers/users.controller.js:186-203 | as written, right after e-mail verification a request without `otp` obtains a session for that e-mail at any time |
| UserProperties.AbsentOtpVerifiesFirstTime | controllers/users.controller.js:91-105 | an account that logs in without ever verifying and completes the login code can then be verified for the first time by a request without `otp` |
| UserProperties.StrictNeedsIssuedCode | controllers/users.controller.js:186-196 | with the corrected check a session needs a submitted, genuine, unexpired code, and the same request cannot be replayed |
| Products.BuildCriteria | controllers/products.controller.js:11-40 | approved and not deleted always; sellerId, category and search only when truthy; price range when either bound is given, `$gte min` and `$lte max`; minimum rating when given |
| Products.ListingSelects | controllers/products.controller.js:11-40 | a product is listed exactly when it is approved, not deleted and meets each constraint whose parameter is present; a NaN bound lists nothing |
| Products.MoreParametersNarrow | controllers/products.controller.js:16-18 | adding a seller filter to a query without one never widens the listing |
| Products.NumberOr | controllers/products.controller.js:42-43 | `Number(p)`, or the default when that is falsy: falls back to the default for missing, zero and NaN, and is never zero |
| Products.BuildPaging | controllers/products.controller.js:42-44 | page defaults to 1 and limit to 30; `skip = (page - 1) * limit`; limit is never zero |
| Products.NegativeSkip | controllers/products.controller.js:42-44 | the skip is negative exactly for a page below 1 with a positive limit or a page above 1 with a negative limit |
| Products.TotalPages | controllers/products.controller.js:64 | `Math.ceil(total / limit)` for either sign of the limit: with a positive limit, the fewest pages of `limit` that hold `total` documents; with a negative limit (`?limit=-5` is truthy), the ceiling of the negative quotient, zero or less |
| Products.PagesCoverResults | controllers/products.controller.js:44-64 | every matching document lies on exactly the page `i / limit + 1`, which is within the reported page count |
| Products.PagesDisjoint | controllers/products.controller.js:44 | the windows of two different pages do not overlap |
| Products.BuildSort | controllers/products.controller.js:46-51 | no sortBy gives createdAt descending; "price" maps to pricing.basePrice; direction is -1 exactly when order is "desc", otherwise 1 |
| Products.OrderFlipsDirection | controllers/products.controller.js:47-50 | for a given sort field, `order=desc` and any other order sort the same field in opposite directions; with no sort field the order is ignored |
| Products.BuildListing | controllers/products.controller.js:8-59 | the listing combines the criteria, sort and paging, never with a zero limit |
| Products.Respond | controllers/products.controller.js:61-68 | the reply carries the total, the count fetched, the requested page and `Math.ceil(total / limit)` as the page count, for a positive or a negative limit |
| Products.AddStatus | controllers/products.controller.js:87-126 | created is 201, forbidden role 403, thrown error 500 |
| Products.DashSpaces | controllers/products.controller.js:95 | every space becomes "-", every other character stays |
| Products.Slug | controllers/products.controller.js:95 | lowercased name with spaces replaced by "-", then "-", then the timestamp |
| Products.SlugHasNoSpace | controllers/products.controller.js:95 | no character of a slug is a space |
| Products.SlugTimestamp | controllers/products.controller.js:95 | the text after the name and its dash parses back to the creation time |
| Products.SlugDistinctInTime | controllers/products.controller.js:95 | one name added at two different milliseconds gets two different slugs |
| Products.NewProduct | controllers/products.controller.js:93-112 | the stored product has the client's fields plus exactly the forced keys, whose values override anything the client sent |
| Products.AddProduct | controllers/products.controller.js:79-122 | a role other than exactly "seller"/"admin" gives 403 and inserts nothing; a non-string name throws and inserts nothing; otherwise one product is appended, approved/active/not deleted with zero analytics and rating |
| Products.ClientCannotForceStatus | controllers/products.controller.js:93-111 | whatever status the client sends, the product is approved with zero counters, and the client's `userRole` is stored with it |
| Auth.Split | middlewares/auth.middleware.js:13 | `split(" ")` yields at least one piece and no piece contains a space |
| Auth.JoinSplit | middlewares/auth.middleware.js:13 | joining the pieces with single spaces gives the header back |
| Auth.BearerPieces | middlewares/auth.middleware.js:13 | a header with the prefix has a second piece, the word right after "Bearer " |
| Auth.BearerToken | middlewares/auth.middleware.js:13 | the token has no space, follows "Bearer " directly and runs to the next space or the end |
| Auth.TokenAfterPrefix | middlewares/auth.middleware.js:13 | "Bearer t" and "Bearer t rest" both yield t; "Bearer " yields the empty string |
| Auth.GateStatus | middlewares/auth.middleware.js:8-21 | missing or malformed header 401, rejected token 403, otherwise no status of its own: the request is handed on by `next()` |
| Auth.VerifyToken | middlewares/auth.middleware.js:3-24 | 401 exactly when the header is missing or lacks the prefix; a pass attaches what the verifier returned for the token after the prefix; a rejection comes from the verifier |
| Auth.VerifierDecides | middlewares/auth.middleware.js:15-24 | for a prefixed header the verifier's answer on the token alone decides between 403 and `next()` with its claims |

## Findings

| source | as written | input that shows it | evidently intended | confidence | as-written member | corrected member |
|---|---|---|---|---|---|---|
| controllers/users.controller.js:186-192 | an absent `otp` equals an absent stored code (`undefined !== undefined` is false), and `new Date() > undefined` is false, so a session is minted | a `verifyLoginOTP` request body `{email}` for any account whose code was cleared by a completed verification or login; no route in the repository as written reaches this handler | a session only for a code that was issued, submitted and unexpired | high, not executed | UserProperties.AbsentOtpIssuesSession | Users.VerifyLoginOtpStrict |

The same comparison in `verifyOTP` (lines 91-95) lets a request without a code verify an account once its code is cleared by either verification. That can be the first time: login never reads `isVerified`, so an account that logs in and completes the login code without ever verifying its e-mail is then verified by a request that carries no code (`UserProperties.AbsentOtpVerifiesFirstTime`).

## Left out

- Mail delivery through nodemailer, and the HTML bodies. A mail is a `Mail` value in the step. Delivery success is a parameter.
- bcrypt's cost, its 72-byte input limit and real collisions. The hash is idealised as collision-free.
- JWT signing secrets and signatures. In the middleware, `jwt.verify` is a parameter.
- MongoDB access, `ObjectId` parsing of the session id (an invalid id throws, giving 500) and the lazy connection in `config/db.js`.
- Concurrent requests and lost updates between concurrent logins. Requests are handled one at a time.
- Each handler reads the clock several times (`new Date()`, `Date.now()`). The model uses one `now` per request.
- Request bodies whose fields are absent or not strings (numbers, arrays, objects), and form-encoded queries with repeated keys. A request without `password` makes bcrypt throw, which gives 500 at controllers/users.controller.js:33 and :133; `Users.Register` and `Users.Login` take the password as a string and cannot express that case.
- Numeric query parameters that are not integers, and parsing of numeric text. A parameter arrives already as absent, an integer or NaN.
- The regular-expression text search over name, brand and tags. A product carries an opaque set of search terms it matches.
- Products.BuildCriteria: a search text that is not a valid regular expression (`c++`, `(`) makes `new RegExp` throw at line 28, and the handler answers 500 with nothing listed. The model builds the criteria anyway, so `Products.ListingSelects` does not cover that error path.
- Products.BuildPaging: the skip `(page - 1) * limit` is negative exactly for a page below 1 with a positive limit (`?page=-1`) or a page above 1 with a negative limit (`?page=2&limit=-5`); `Products.NegativeSkip` states this. MongoDB refuses a negative skip, so the source answers 500 there before any reply is built. The model computes the negative skip and does not model the refusal, so the negative-limit clause of `Products.Respond` describes a reply the source sends only for a page of 1 or below.
- Running the query (`countDocuments`, `find`, `sort`, `skip`, `limit`). Only the criteria and arithmetic are modelled; the counts are parameters.
- `index.js` and the route files: Express, CORS and routing. `index.js` mounts no router. `routes/user.routes.js` wires only register and verify-otp. `routes/products.routes.js` imports handlers that the products controller does not export.
- Users.VerifyOtp: a submitted JSON `null` otp is not modelled; `None` means the key is absent. In the source `undefined !== null` holds, so a `null` otp is always a mismatch (400) at controllers/users.controller.js:91.
- Users.VerifyLoginOtp: a submitted JSON `null` otp is not modelled either; at controllers/users.controller.js:186 it is always a mismatch (400), unlike an absent key.
- Text.ToUpper: covers ASCII letters only, not full Unicode case mapping. Codes are hexadecimal, so this does not matter there.
- Text.ToLower: covers ASCII letters only, so non-ASCII product names are not lowercased as JavaScript would.
- Users.UpdateProfile: applies the update to every record carrying the session's id. This equals `updateOne` under the unique `_id` index (`IdsUnique`), which the database guarantees.
- Users.UpdatePassword: treats every record carrying the session's id alike. This equals `findOne` followed by `updateOne` under the unique `_id` index.
- Users.UpdateProfile: an empty `$set` is taken to be a no-op that modifies nothing, as MongoDB 5.0 and later do. Older servers reject it with an error (500).
- Products.AddProduct: `createdAt`, `updatedAt` and the slug timestamp are one `now`. The `insertedId` check at line 116 always passes and is not modelled.

=== FILE: auth.dfy ===
/**
 * The `verifyToken` middleware: a request passes only with an
 * `Authorization: Bearer <token>` header whose token the verifier accepts.
 * Token verification (`jwt.verify` with the server secret) is a parameter: a
 * partial function from token text to decoded claims.
 */
module Auth {
  import opened Wrappers

  const Prefix: string := "Bearer "

  /** `s.startsWith(p)`. */
  predicate StartsWith(s: string, p: string) {
    |p| <= |s| && s[..|p|] == p
  }

  /** `s.split(" ")`: the pieces between single spaces, empty ones included. */
  function Split(s: string): (parts: seq<string>)
    ensures |parts| >= 1
    ensures forall i :: 0 <= i < |parts| ==> ' ' !in parts[i]
  {
    if |s| == 0 then [""]
    else
      var rest := Split(s[1..]);
      if s[0] == ' ' then [""] + rest else [[s[0]] + rest[0]] + rest[1..]
  }

  /** `parts.join(" ")`. */
  function Join(parts: seq<string>): string
    requires |parts| >= 1
  {
    if |parts| == 1 then parts[0] else parts[0] + " " + Join(parts[1..])
  }

  /** Splitting loses nothing: joining the pieces gives the header back. */
  lemma {:induction false} JoinSplit(s: string)
    ensures Join(Split(s)) == s
  {
    if |s| > 0 {
      var rest := Split(s[1..]);
      JoinSplit(s[1..]);
      if s[0] == ' ' {
        assert Join([""] + rest) == "" + " " + Join(rest);
        assert s == [' '] + s[1..];
      } else {
        var parts := [[s[0]] + rest[0]] + rest[1..];
        if |rest| == 1 {
          assert Join(parts) == [s[0]] + rest[0];
        } else {
          assert parts[1..] == rest[1..];
          assert Join(parts) == [s[0]] + rest[0] + " " + Join(rest[1..]);
          assert Join(rest) == rest[0] + " " + Join(rest[1..]);
        }
        assert s == [s[0]] + s[1..];
      }
    }
  }

  /** A word followed by a space splits off as the first piece. */
  lemma {:induction false} SplitAfterWord(w: string, t: string)
    requires ' ' !in w
    ensures Split(w + " " + t) == [w] + Split(t)
    decreases |w|
  {
    if |w| == 0 {
      assert (w + " " + t)[1..] == t;
    } else {
      assert (w + " " + t)[1..] == w[1..] + " " + t;
      SplitAfterWord(w[1..], t);
      assert [w[0]] + w[1..] == w;
    }
  }

  /** A header with the prefix splits into "Bearer" and at least one more piece, the word after the prefix. */
  lemma BearerPieces(header: string)
    requires StartsWith(header, Prefix)
    ensures |Split(header)| >= 2
    ensures Split(header)[1] == Split(header[|Prefix|..])[0]
    ensures StartsWith(header, Prefix + Split(header)[1])
    ensures |Prefix + Split(header)[1]| < |header| ==> header[|Prefix + Split(header)[1]|] == ' '
  {
    var t := header[|Prefix|..];
    assert header == "Bearer" + " " + t;
    SplitAfterWord("Bearer", t);
    var parts := Split(t);
    var token := parts[0];
    JoinSplit(t);
    if |parts| > 1 {
      assert t == token + " " + Join(parts[1..]);
      assert (Prefix + token + " " + Join(parts[1..]))[|Prefix + token|] == ' ';
    }
    assert header == Prefix + t;
  }

  /** `authHeader.split(" ")[1]` for a header with the prefix. */
  function BearerToken(header: string): (token: string)
    requires StartsWith(header, Prefix)
    ensures ' ' !in token
    ensures StartsWith(header, Prefix + token)
    ensures |Prefix + token| < |header| ==> header[|Prefix + token|] == ' '
  {
    BearerPieces(header);
    Split(header)[1]
  }

  /** The token is the text after "Bearer " up to the next space: "Bearer " alone gives "". */
  lemma TokenAfterPrefix(token: string, rest: string)
    requires ' ' !in token
    ensures BearerToken(Prefix + token) == token
    ensures BearerToken(Prefix + token + " " + rest) == token
  {
    var h1 := Prefix + token;
    var h2 := Prefix + token + " " + rest;
    assert StartsWith(h1, Prefix) && StartsWith(h2, Prefix);
    var a := BearerToken(h1);
    var b := BearerToken(h2);
    AfterPrefix(h1, a);
    AfterPrefix(h2, b);
    AfterPrefix(h1, token);
    assert h2 == Prefix + (token + " " + rest);
    AfterPrefix(h2, token);
    SpaceFreePrefixEqual(h1[|Prefix|..], a, token);
    SpaceFreePrefixEqual(h2[|Prefix|..], b, token);
  }

  lemma AfterPrefix(h: string, w: string)
    requires StartsWith(h, Prefix + w)
    ensures |w| <= |h[|Prefix|..]| && h[|Prefix|..][..|w|] == w
    ensures |w| < |h[|Prefix|..]| ==> h[|Prefix|..][|w|] == h[|Prefix + w|]
  {
  }

  /** Two space-free words that each run up to a space (or the end) of one text are equal. */
  lemma SpaceFreePrefixEqual(t: string, a: string, b: string)
    requires ' ' !in a && ' ' !in b
    requires |a| <= |t| && t[..|a|] == a && (|a| < |t| ==> t[|a|] == ' ')
    requires |b| <= |t| && t[..|b|] == b && (|b| < |t| ==> t[|b|] == ' ')
    ensures a == b
  {
  }

  /** Outcome of the middleware: 401, 403, or `next()` called once with the decoded claims attached. */
  datatype Gate<P> = Unauthorized | Forbidden | Next(user: P)

  /** Marks a request handed on by `next()`: the middleware itself sends no status then. */
  const HandedOn: int := 0

  /** The status the middleware sends, or `HandedOn` when it sends none. */
  function GateStatus<P>(g: Gate<P>): (code: int)
    ensures code == 401 <==> g.Unauthorized?
    ensures code == 403 <==> g.Forbidden?
    ensures code == HandedOn <==> g.Next?
  {
    match g
    case Unauthorized => 401
    case Forbidden => 403
    case Next(_) => HandedOn
  }

  /** `verifyToken`. */
  function VerifyToken<P>(header: Option<string>, verify: string -> Option<P>): (g: Gate<P>)
    ensures header.None? ==> g == Unauthorized
    ensures g == Unauthorized <==> header.None? || !StartsWith(header.value, Prefix)
    ensures g.Next? ==>
      exists token :: && ' ' !in token && StartsWith(header.value, Prefix + token)
                      && (|Prefix + token| < |header.value| ==> header.value[|Prefix + token|] == ' ')
                      && verify(token) == Some(g.user)
    ensures g == Forbidden ==>
      exists token :: && ' ' !in token && StartsWith(header.value, Prefix + token)
                      && (|Prefix + token| < |header.value| ==> header.value[|Prefix + token|] == ' ')
                      && verify(token).None?
  {
    if header.None? || !StartsWith(header.value, Prefix) then
      Unauthorized
    else
      var token := BearerToken(header.value);
      match verify(token)
      case None => Forbidden
      case Some(claims) => Next(claims)
  }

  /** The verifier sees exactly the word after the prefix, and its answer decides the outcome. */
  lemma VerifierDecides<P>(token: string, rest: string, verify: string -> Option<P>)
    requires ' ' !in token
    ensures VerifyToken(Some(Prefix + token + " " + rest), verify) ==
      (if verify(token).Some? then Next(verify(token).value) else Forbidden)
    ensures VerifyToken(Some(Prefix + token), verify) ==
      (if verify(token).Some? then Next(verify(token).value) else Forbidden)
  {
    TokenAfterPrefix(token, rest);
    assert StartsWith(Prefix + token + " " + rest, Prefix);
    assert StartsWith(Prefix + token, Prefix);
  }
}

=== FILE: numbers.dfy ===
/** Integer arithmetic that the handlers perform with JavaScript numbers. */
module Numbers {

  /** `Math.ceil(a / b)` for integers, exact for either sign of `b`. */
  function CeilDiv(a: int, b: int): (r: int)
    requires b != 0
    ensures b > 0 ==> (r - 1) * b < a <= r * b
    ensures b < 0 ==> r * b <= a < (r - 1) * b
  {
    if b > 0 then
      var q := (-a) / b;
      assert -a == q * b + (-a) % b;
      -q
    else
      var q := a / (-b);
      assert a == q * (-b) + a % (-b);
      -q
  }

  lemma MulMonotone(x: int, y: int, b: int)
    requires x <= y && b > 0
    ensures x * b <= y * b
  {
  }
}

=== FILE: otp.dfy ===
/**
 * The one-time code issuer: `crypto.randomBytes(4).toString('hex').toUpperCase()`.
 * The four random bytes are a parameter; everything after them is modelled.
 */
module Otp {
  import opened Wrappers
  import Text

  type byte = b: int | 0 <= b < 256

  /** `randomBytes(4)`: four bytes give an eight-character code. */
  const CodeBytes: nat := 4
  const CodeLength: nat := 8

  predicate IsUpperHexChar(c: char) { '0' <= c <= '9' || 'A' <= c <= 'F' }
  predicate IsLowerHexChar(c: char) { '0' <= c <= '9' || 'a' <= c <= 'f' }

  /** A code as the registration mail promises it: eight upper-case hexadecimal characters. */
  predicate IsOtpCode(s: string) {
    |s| == CodeLength && forall i :: 0 <= i < |s| ==> IsUpperHexChar(s[i])
  }

  /** One nibble as Node's `'hex'` encoding writes it (lower case). */
  function LowerNibble(d: int): (c: char)
    requires 0 <= d < 16
    ensures IsLowerHexChar(c)
  {
    if d < 10 then ('0' as int + d) as char else ('a' as int + d - 10) as char
  }

  /** `Buffer.toString('hex')`: two lower-case characters per byte, high nibble first. */
  function HexLower(bytes: seq<byte>): (s: string)
    ensures |s| == 2 * |bytes|
    ensures forall i :: 0 <= i < |s| ==> IsLowerHexChar(s[i])
  {
    if |bytes| == 0 then ""
    else [LowerNibble(bytes[0] / 16), LowerNibble(bytes[0] % 16)] + HexLower(bytes[1..])
  }

  /** The code generated at registration and at login. */
  function Issue(random: seq<byte>): (code: string)
    requires |random| == CodeBytes
    ensures IsOtpCode(code)
  {
    var code := Text.ToUpper(HexLower(random));
    assert forall i :: 0 <= i < |code| ==> IsUpperHexChar(code[i]) by {
      forall i | 0 <= i < |code|
        ensures IsUpperHexChar(code[i])
      {
        assert IsLowerHexChar(HexLower(random)[i]);
      }
    }
    code
  }

  /** Value of one upper-case hexadecimal character. */
  function NibbleValue(c: char): Option<int> {
    if '0' <= c <= '9' then Some(c as int - '0' as int)
    else if 'A' <= c <= 'F' then Some(c as int - 'A' as int + 10)
    else None
  }

  /** Reads an upper-case hexadecimal string back into bytes. */
  function DecodeHex(s: string): (r: Option<seq<byte>>)
    ensures r.Some? ==> 2 * |r.value| == |s|
    decreases |s|
  {
    if |s| == 0 then Some([])
    else if |s| == 1 then None
    else
      match (NibbleValue(s[0]), NibbleValue(s[1]), DecodeHex(s[2..]))
      case (Some(hi), Some(lo), Some(rest)) =>
        if 0 <= hi < 16 && 0 <= lo < 16 then Some([hi * 16 + lo] + rest) else None
      case _ => None
  }

  lemma {:induction false} DecodeUpperHex(bytes: seq<byte>)
    ensures DecodeHex(Text.ToUpper(HexLower(bytes))) == Some(bytes)
    decreases |bytes|
  {
    if |bytes| > 0 {
      var s := Text.ToUpper(HexLower(bytes));
      assert s[2..] == Text.ToUpper(HexLower(bytes[1..]));
      DecodeUpperHex(bytes[1..]);
      assert [bytes[0]] + bytes[1..] == bytes;
    }
  }

  /** The issued code determines the random bytes it was made from. */
  lemma IssueRoundTrip(random: seq<byte>)
    requires |random| == CodeBytes
    ensures DecodeHex(Issue(random)) == Some(random)
  {
    DecodeUpperHex(random);
  }

  /** Different random bytes never yield the same code. */
  lemma IssueInjective(a: seq<byte>, b: seq<byte>)
    requires |a| == CodeBytes && |b| == CodeBytes
    requires Issue(a) == Issue(b)
    ensures a == b
  {
    IssueRoundTrip(a);
    IssueRoundTrip(b);
  }
}

=== FILE: password.dfy ===
/**
 * bcrypt as the handlers use it: `bcrypt.hash(p, 10)` with a fresh salt and
 * `bcrypt.compare(p, h)`. The hash is idealised: it keeps the salt and stands for
 * the password without revealing it, and it admits no collisions.
 */
module Password {

  /** Cost factor passed to `bcrypt.hash`. */
  const Rounds: nat := 10

  datatype PasswordHash = Bcrypt(rounds: nat, salt: nat, secret: string)

  /** `bcrypt.hash(password, 10)`; the random salt is a parameter. */
  function Hash(password: string, salt: nat): (h: PasswordHash)
    ensures h.rounds == Rounds && h.salt == salt
  {
    Bcrypt(Rounds, salt, password)
  }

  /** `bcrypt.compare(password, hash)`. */
  predicate Matches(password: string, h: PasswordHash) {
    h.secret == password
  }

  /** A password matches its own hash, whatever salt was drawn, and no other password does. */
  lemma HashMatches(password: string, other: string, salt: nat)
    ensures Matches(password, Hash(password, salt))
    ensures Matches(other, Hash(password, salt)) <==> other == password
  {
  }
}

=== FILE: products.dfy ===
/**
 * The products controller: the criteria, paging and sort that `getAllProducts`
 * builds from its query string, and the role gate, slug and server-forced fields
 * of `addProduct`. Running the query is the database's business and is not
 * modelled; what the handler computes around it is.
 */
module Products {
  import opened Wrappers
  import Numbers
  import opened Text

  // ---------------------------------------------------------------------------
  // Query parameters
  // ---------------------------------------------------------------------------

  /**
   * A numeric query parameter: `Absent` when missing or empty (falsy), otherwise
   * a non-empty string whose `Number(...)` is an integer or NaN.
   */
  datatype NumParam = Absent | Numeric(n: int) | NotANumber

  /** A number placed into a criterion; NaN compares false with everything. */
  datatype Num = Int(n: int) | NaN

  datatype ListingQuery = ListingQuery(
    sellerId: Option<string>,
    category: Option<string>,
    search: Option<string>,
    minPrice: NumParam,
    maxPrice: NumParam,
    rating: NumParam,
    page: NumParam,
    limit: NumParam,
    sortBy: Option<string>,
    order: Option<string>)

  /** `Number(s)` of a parameter that is present. */
  function NumberOf(p: NumParam): (x: Num)
    requires p != Absent
    ensures x.Int? <==> p.Numeric?
    ensures x.Int? ==> x.n == p.n
  {
    if p.Numeric? then Int(p.n) else NaN
  }

  // ---------------------------------------------------------------------------
  // Filter criteria
  // ---------------------------------------------------------------------------

  /** `pricing.basePrice: {$gte, $lte}` with either bound optional. */
  datatype Range = Range(gte: Option<Num>, lte: Option<Num>)

  /** The query document, as a typed record of its possible keys. */
  datatype Criteria = Criteria(
    approval: string,
    isDeleted: bool,
    sellerId: Option<string>,
    categorySlug: Option<string>,
    search: Option<string>,
    basePrice: Option<Range>,
    minRating: Option<Num>)

  /** Keep a string parameter only when it is truthy. */
  function IfTruthy(v: Option<string>): (r: Option<string>)
    ensures r.Some? <==> Truthy(v)
    ensures r.Some? ==> r == v
  {
    if Truthy(v) then v else None
  }

  /** The filter built by `getAllProducts`. */
  function BuildCriteria(q: ListingQuery): (c: Criteria)
    ensures c.approval == "approved" && !c.isDeleted
    ensures c.sellerId.Some? <==> Truthy(q.sellerId)
    ensures c.sellerId.Some? ==> c.sellerId == q.sellerId
    ensures c.categorySlug.Some? <==> Truthy(q.category)
    ensures c.categorySlug.Some? ==> c.categorySlug == q.category
    ensures c.search.Some? <==> Truthy(q.search)
    ensures c.search.Some? ==> c.search == q.search
    ensures c.basePrice.Some? <==> q.minPrice != Absent || q.maxPrice != Absent
    ensures c.basePrice.Some? ==>
      && (c.basePrice.value.gte.Some? <==> q.minPrice != Absent)
      && (c.basePrice.value.lte.Some? <==> q.maxPrice != Absent)
      && (q.minPrice != Absent ==> c.basePrice.value.gte == Some(NumberOf(q.minPrice)))
      && (q.maxPrice != Absent ==> c.basePrice.value.lte == Some(NumberOf(q.maxPrice)))
    ensures c.minRating.Some? <==> q.rating != Absent
    ensures q.rating != Absent ==> c.minRating == Some(NumberOf(q.rating))
  {
    var price :=
      if q.minPrice != Absent || q.maxPrice != Absent then
        Some(Range(if q.minPrice != Absent then Some(NumberOf(q.minPrice)) else None,
                   if q.maxPrice != Absent then Some(NumberOf(q.maxPrice)) else None))
      else None;
    Criteria(
      approval := "approved",
      isDeleted := false,
      sellerId := IfTruthy(q.sellerId),
      categorySlug := IfTruthy(q.category),
      search := IfTruthy(q.search),
      basePrice := price,
      minRating := if q.rating != Absent then Some(NumberOf(q.rating)) else None)
  }

  /**
   * The parts of a product document the criteria look at. Text search is a
   * case-insensitive regular expression over name, brand and tags; it is kept
   * opaque as the set of search strings the product matches.
   */
  datatype ProductView = ProductView(
    approval: string,
    isDeleted: bool,
    sellerId: string,
    categorySlug: string,
    basePrice: int,
    ratingAverage: int,
    searchHits: set<string>)

  predicate AtLeast(x: int, bound: Num) { bound.Int? && x >= bound.n }
  predicate AtMost(x: int, bound: Num) { bound.Int? && x <= bound.n }

  /** Whether a product satisfies a criteria document. */
  predicate Admits(c: Criteria, p: ProductView) {
    && p.approval == c.approval
    && p.isDeleted == c.isDeleted
    && (c.sellerId.Some? ==> p.sellerId == c.sellerId.value)
    && (c.categorySlug.Some? ==> p.categorySlug == c.categorySlug.value)
    && (c.search.Some? ==> c.search.value in p.searchHits)
    && (c.basePrice.Some? ==>
          && (c.basePrice.value.gte.Some? ==> AtLeast(p.basePrice, c.basePrice.value.gte.value))
          && (c.basePrice.value.lte.Some? ==> AtMost(p.basePrice, c.basePrice.value.lte.value)))
    && (c.minRating.Some? ==> AtLeast(p.ratingAverage, c.minRating.value))
  }

  /**
   * What a listing returns, stated directly on the query: approved, not deleted,
   * and each constraint only when its parameter is given; a numeric bound that
   * is not a number excludes everything.
   */
  lemma ListingSelects(q: ListingQuery, p: ProductView)
    ensures Admits(BuildCriteria(q), p) <==>
      && p.approval == "approved"
      && !p.isDeleted
      && (Truthy(q.sellerId) ==> p.sellerId == q.sellerId.value)
      && (Truthy(q.category) ==> p.categorySlug == q.category.value)
      && (Truthy(q.search) ==> q.search.value in p.searchHits)
      && (q.minPrice != Absent ==> q.minPrice.Numeric? && q.minPrice.n <= p.basePrice)
      && (q.maxPrice != Absent ==> q.maxPrice.Numeric? && p.basePrice <= q.maxPrice.n)
      && (q.rating != Absent ==> q.rating.Numeric? && q.rating.n <= p.ratingAverage)
  {
  }

  /** Adding a seller parameter to a query that had none never widens the listing. */
  lemma MoreParametersNarrow(q: ListingQuery, p: ProductView, seller: string)
    requires !Truthy(q.sellerId)
    requires Admits(BuildCriteria(q.(sellerId := Some(seller))), p)
    ensures Admits(BuildCriteria(q), p)
  {
  }

  // ---------------------------------------------------------------------------
  // Paging
  // ---------------------------------------------------------------------------

  const DefaultPage: int := 1
  const DefaultLimit: int := 30

  /** `Number(p) || d`: zero, NaN and absence all fall back to the default. */
  function NumberOr(p: NumParam, d: int): (r: int)
    requires d != 0
    ensures r != 0
    ensures p.Numeric? && p.n != 0 ==> r == p.n
    ensures !(p.Numeric? && p.n != 0) ==> r == d
  {
    if p.Numeric? && p.n != 0 then p.n else d
  }

  /** Documents skipped before a page. */
  function Skip(page: int, limit: int): int {
    (page - 1) * limit
  }

  datatype Paging = Paging(page: int, limit: int, skip: int)

  function BuildPaging(q: ListingQuery): (pg: Paging)
    ensures pg.page != 0 && pg.limit != 0
    ensures pg.page == (if q.page.Numeric? && q.page.n != 0 then q.page.n else 1)
    ensures pg.limit == (if q.limit.Numeric? && q.limit.n != 0 then q.limit.n else 30)
    ensures pg.skip == Skip(pg.page, pg.limit)
  {
    var page := NumberOr(q.page, DefaultPage);
    var limit := NumberOr(q.limit, DefaultLimit);
    Paging(page, limit, Skip(page, limit))
  }

  /**
   * The skip is negative, which the database refuses, exactly for a page below 1
   * with a positive limit or a page above 1 with a negative limit.
   */
  lemma NegativeSkip(q: ListingQuery)
    ensures var pg := BuildPaging(q);
      pg.skip < 0 <==> (pg.page < 1 && pg.limit > 0) || (pg.page > 1 && pg.limit < 0)
  {
    var pg := BuildPaging(q);
    if pg.page < 1 && pg.limit > 0 {
      assert (pg.page - 1) * pg.limit <= (-1) * pg.limit;
    } else if pg.page > 1 && pg.limit < 0 {
      assert (pg.page - 1) * pg.limit <= pg.limit;
    } else if pg.page == 1 {
    } else if pg.page < 1 {
      assert (pg.page - 1) * pg.limit >= 0;
    } else {
      assert (pg.page - 1) * pg.limit >= 0;
    }
  }

  /** `Math.ceil(totalProducts / limit)`; the limit is never zero. */
  function TotalPages(total: nat, limit: int): (n: int)
    requires limit != 0
    ensures limit > 0 ==> (n - 1) * limit < total <= n * limit
    ensures limit < 0 ==> n * limit <= total < (n - 1) * limit
    ensures limit > 0 ==> n >= 0
    ensures limit < 0 ==> n <= 0
  {
    Numbers.CeilDiv(total, limit)
  }

  /**
   * With a positive limit, the document at position `i` of the result lies on
   * page `i / limit + 1`, which is one of the reported pages, and pages do not overlap.
   */
  lemma PagesCoverResults(total: nat, limit: int, i: nat)
    requires limit > 0 && i < total
    ensures 1 <= i / limit + 1 <= TotalPages(total, limit)
    ensures Skip(i / limit + 1, limit) <= i < Skip(i / limit + 1, limit) + limit
  {
    var p := i / limit;
    assert i == p * limit + i % limit;
    var n := TotalPages(total, limit);
    if p + 1 > n {
      Numbers.MulMonotone(n, p, limit);
      assert false;
    }
  }

  lemma PagesDisjoint(limit: int, p1: int, p2: int)
    requires limit > 0 && p1 < p2
    ensures Skip(p1, limit) + limit <= Skip(p2, limit)
  {
    Numbers.MulMonotone(p1, p2 - 1, limit);
  }

  // ---------------------------------------------------------------------------
  // Sorting
  // ---------------------------------------------------------------------------

  datatype SortSpec = SortSpec(field: string, direction: int)

  const DefaultSort: SortSpec := SortSpec("createdAt", -1)

  function BuildSort(q: ListingQuery): (s: SortSpec)
    ensures !Truthy(q.sortBy) ==> s == SortSpec("createdAt", -1)
    ensures Truthy(q.sortBy) ==>
      && (q.sortBy.value == "price" ==> s.field == "pricing.basePrice")
      && (q.sortBy.value != "price" ==> s.field == q.sortBy.value)
      && (s.direction == -1 <==> q.order == Some("desc"))
      && (s.direction == 1 <==> q.order != Some("desc"))
  {
    if Truthy(q.sortBy) then
      var field := if q.sortBy.value == "price" then "pricing.basePrice" else q.sortBy.value;
      SortSpec(field, if q.order == Some("desc") then -1 else 1)
    else
      DefaultSort
  }

  /**
   * With a sort field given, "desc" and any other order sort on the same field
   * in opposite directions; without one, the order parameter is ignored.
   */
  lemma OrderFlipsDirection(q: ListingQuery, other: Option<string>)
    requires other != Some("desc")
    ensures BuildSort(q.(order := Some("desc"))).field == BuildSort(q.(order := other)).field
    ensures Truthy(q.sortBy) ==>
      BuildSort(q.(order := Some("desc"))).direction == -BuildSort(q.(order := other)).direction
    ensures !Truthy(q.sortBy) ==> BuildSort(q.(order := Some("desc"))) == BuildSort(q.(order := other))
  {
  }

  // ---------------------------------------------------------------------------
  // getAllProducts
  // ---------------------------------------------------------------------------

  datatype Listing = Listing(criteria: Criteria, sort: SortSpec, paging: Paging)

  /** The body sent back: counts come from the database, pages are computed here. */
  datatype ListingReply = ListingReply(totalProducts: nat, totalPages: int, currentPage: int, count: nat)

  function BuildListing(q: ListingQuery): (l: Listing)
    ensures l.criteria.approval == "approved" && !l.criteria.isDeleted
    ensures l.paging.limit != 0
    ensures l.criteria == BuildCriteria(q) && l.sort == BuildSort(q) && l.paging == BuildPaging(q)
  {
    Listing(BuildCriteria(q), BuildSort(q), BuildPaging(q))
  }

  /** The reply for `total` matching documents of which `fetched` were returned. */
  function Respond(l: Listing, total: nat, fetched: nat): (r: ListingReply)
    requires l.paging.limit != 0
    ensures r.currentPage == l.paging.page
    ensures l.paging.limit > 0 ==> (r.totalPages - 1) * l.paging.limit < total <= r.totalPages * l.paging.limit
    ensures l.paging.limit < 0 ==> r.totalPages * l.paging.limit <= total < (r.totalPages - 1) * l.paging.limit
    ensures r.totalProducts == total && r.count == fetched
  {
    ListingReply(total, TotalPages(total, l.paging.limit), l.paging.page, fetched)
  }

  // ---------------------------------------------------------------------------
  // addProduct
  // ---------------------------------------------------------------------------

  /** A JSON value of a request body or stored document. */
  datatype Json =
    | JStr(s: string)
    | JNum(n: int)
    | JBool(b: bool)
    | JNull
    | JDate(ms: int)
    | JObj(fields: map<string, Json>)
    | JArr(items: seq<Json>)

  type Doc = map<string, Json>

  const ForcedStatus: Json :=
    JObj(map["approval" := JStr("approved"), "isActive" := JBool(true), "isDeleted" := JBool(false)])
  const ZeroAnalytics: Json :=
    JObj(map["views" := JNum(0), "salesCount" := JNum(0), "wishlistCount" := JNum(0)])
  const ZeroRating: Json :=
    JObj(map["average" := JNum(0), "totalReviews" := JNum(0)])

  /** Keys the server writes over whatever the client sent. */
  const ForcedKeys: set<string> := {"slug", "status", "analytics", "rating", "createdAt", "updatedAt"}

  datatype AddReply = ProductAdded(product: Doc) | ForbiddenRole | AddFailed

  function AddStatus(r: AddReply): (code: int)
    ensures code == 201 <==> r.ProductAdded?
    ensures code == 403 <==> r.ForbiddenRole?
    ensures code == 500 <==> r.AddFailed?
  {
    match r
    case ProductAdded(_) => 201
    case ForbiddenRole => 403
    case AddFailed => 500
  }

  /** `userRole` must be exactly the string "seller" or "admin". */
  predicate RoleAllowed(body: Doc) {
    "userRole" in body && (body["userRole"] == JStr("seller") || body["userRole"] == JStr("admin"))
  }

  /** `s.replace(/ /g, "-")`. */
  function DashSpaces(s: string): (r: string)
    ensures |r| == |s|
    ensures forall i :: 0 <= i < |s| ==> r[i] == (if s[i] == ' ' then '-' else s[i])
  {
    if |s| == 0 then "" else [if s[0] == ' ' then '-' else s[0]] + DashSpaces(s[1..])
  }

  /** `name.toLowerCase().replace(/ /g, "-") + "-" + Date.now()`. */
  function Slug(name: string, now: int): (slug: string)
    ensures |slug| == |name| + 1 + |Decimal(now)|
    ensures forall i :: 0 <= i < |name| ==>
      slug[i] == (if name[i] == ' ' then '-' else LowerChar(name[i]))
    ensures slug[|name|] == '-'
    ensures slug[|name| + 1..] == Decimal(now)
  {
    DashSpaces(ToLower(name)) + "-" + Decimal(now)
  }

  /** A slug contains no space. */
  lemma SlugHasNoSpace(name: string, now: int, i: int)
    requires 0 <= i < |Slug(name, now)|
    ensures Slug(name, now)[i] != ' '
  {
    var slug := Slug(name, now);
    if i > |name| {
      assert slug[i] == Decimal(now)[i - |name| - 1];
    }
  }

  /** The tail of a slug gives back the creation time. */
  lemma SlugTimestamp(name: string, now: int)
    ensures ParseInt(Slug(name, now)[|name| + 1..]) == Some(now)
  {
    DecimalRoundTrip(now);
  }

  /** The same name added at two different instants gets two different slugs. */
  lemma SlugDistinctInTime(name: string, t1: int, t2: int)
    requires Slug(name, t1) == Slug(name, t2)
    ensures t1 == t2
  {
    SlugTimestamp(name, t1);
    SlugTimestamp(name, t2);
  }

  /** The fields the server writes over whatever the body holds. */
  function Forced(name: string, now: int): (m: Doc)
    ensures m.Keys == ForcedKeys
    ensures m["slug"] == JStr(Slug(name, now))
    ensures m["status"] == ForcedStatus
    ensures m["analytics"] == ZeroAnalytics
    ensures m["rating"] == ZeroRating
    ensures m["createdAt"] == JDate(now) && m["updatedAt"] == JDate(now)
  {
    map[
      "slug" := JStr(Slug(name, now)),
      "status" := ForcedStatus,
      "analytics" := ZeroAnalytics,
      "rating" := ZeroRating,
      "createdAt" := JDate(now),
      "updatedAt" := JDate(now)]
  }

  /** `{...productData, slug, status, analytics, rating, createdAt, updatedAt}`. */
  function NewProduct(body: Doc, name: string, now: int): (doc: Doc)
    ensures doc.Keys == body.Keys + ForcedKeys
    ensures forall k :: k in body && k !in ForcedKeys ==> doc[k] == body[k]
    ensures doc["slug"] == JStr(Slug(name, now))
    ensures doc["status"] == ForcedStatus
    ensures doc["analytics"] == ZeroAnalytics
    ensures doc["rating"] == ZeroRating
    ensures doc["createdAt"] == JDate(now) && doc["updatedAt"] == JDate(now)
  {
    body + Forced(name, now)
  }

  /**
   * `addProduct`: refuse roles other than seller and admin (nothing inserted);
   * a body whose `name` is not a string makes `toLowerCase` throw (500, nothing
   * inserted); otherwise insert the body with the server-forced fields.
   */
  function AddProduct(products: seq<Doc>, body: Doc, now: int): (r: (AddReply, seq<Doc>))
    ensures !RoleAllowed(body) ==> r == (ForbiddenRole, products)
    ensures RoleAllowed(body) && !("name" in body && body["name"].JStr?) ==> r == (AddFailed, products)
    ensures r.0.ProductAdded? <==> RoleAllowed(body) && "name" in body && body["name"].JStr?
    ensures r.0.ProductAdded? ==>
      && r.1 == products + [r.0.product]
      && r.0.product.Keys == body.Keys + ForcedKeys
      && (forall k :: k in body && k !in ForcedKeys ==> r.0.product[k] == body[k])
      && r.0.product["status"] == ForcedStatus
      && r.0.product["analytics"] == ZeroAnalytics
      && r.0.product["rating"] == ZeroRating
      && r.0.product["slug"] == JStr(Slug(body["name"].s, now))
  {
    if !RoleAllowed(body) then
      (ForbiddenRole, products)
    else if !("name" in body && body["name"].JStr?) then
      (AddFailed, products)
    else
      var doc := NewProduct(body, body["name"].s, now);
      (ProductAdded(doc), products + [doc])
  }

  /**
   * Whatever the client sends for status, analytics or rating, a created product
   * is approved, active, not deleted and has zero counters; the caller's role is
   * stored with it because the body is spread first.
   */
  lemma ClientCannotForceStatus(products: seq<Doc>, body: Doc, now: int, status: Json)
    requires RoleAllowed(body) && "name" in body && body["name"].JStr?
    ensures
      var r := AddProduct(products, body["status" := status], now);
      && r.0.ProductAdded?
      && r.0.product["status"] == ForcedStatus
      && r.0.product["analytics"] == ZeroAnalytics
      && r.0.product["rating"] == ZeroRating
      && r.0.product["userRole"] == body["userRole"]
  {
    var b := body["status" := status];
    assert "userRole" in b && b["userRole"] == body["userRole"];
    assert RoleAllowed(b);
  }
}

=== FILE: session.dfy ===
/**
 * The session issuer: `jwt.sign({id, email, role}, secret, {expiresIn: '7d'})`.
 * Signing is idealised to the payload it carries; times in a token are in seconds.
 */
module Session {

  type UserId = nat

  const SecondMs: nat := 1000
  /** `expiresIn: '7d'` in seconds. */
  const SessionSeconds: nat := 7 * 24 * 60 * 60
  const SessionMs: nat := SessionSeconds * SecondMs

  /** The claims a session carries: exactly id, email and role. */
  datatype Claims = Claims(id: UserId, email: string, role: string)

  /** A signed session: the claims plus the `iat`/`exp` fields the library adds. */
  datatype Token = Token(claims: Claims, issuedAt: int, expiresAt: int)

  /** Mints a token at `now` (milliseconds); `iat` is `Math.floor(now / 1000)`. */
  function Sign(claims: Claims, now: int): (t: Token)
    ensures t.claims == claims
    ensures t.expiresAt - t.issuedAt == SessionSeconds
    ensures t.issuedAt * SecondMs <= now < t.issuedAt * SecondMs + SecondMs
    ensures now + SessionMs - SecondMs < t.expiresAt * SecondMs <= now + SessionMs
  {
    var iat := now / SecondMs;
    Token(claims, iat, iat + SessionSeconds)
  }

  /** A token is live until its expiry second has passed. */
  predicate Live(t: Token, now: int) {
    now < t.expiresAt * SecondMs
  }

  /** A freshly minted token stays live for a little under seven days. */
  lemma SignedLive(claims: Claims, now: int, later: int)
    requires now <= later <= now + SessionMs - SecondMs
    ensures Live(Sign(claims, now), later)
  {
  }
}

=== FILE: text.dfy ===
/**
 * String helpers with JavaScript meaning: `toUpperCase`/`toLowerCase` restricted to
 * ASCII letters, and `String(n)` for an integer `n` with its inverse.
 */
module Text {
  import opened Wrappers

  predicate IsLowerLetter(c: char) { 'a' <= c <= 'z' }
  predicate IsUpperLetter(c: char) { 'A' <= c <= 'Z' }
  predicate IsDigit(c: char) { '0' <= c <= '9' }

  /** Truthiness of an optional string: present and non-empty. */
  predicate Truthy(v: Option<string>) {
    v.Some? && v.value != ""
  }

  function UpperChar(c: char): (u: char)
    ensures IsLowerLetter(c) ==> IsUpperLetter(u) && u as int == c as int - 32
    ensures !IsLowerLetter(c) ==> u == c
  {
    if IsLowerLetter(c) then (c as int - 32) as char else c
  }

  function LowerChar(c: char): (l: char)
    ensures IsUpperLetter(c) ==> IsLowerLetter(l) && l as int == c as int + 32
    ensures !IsUpperLetter(c) ==> l == c
  {
    if IsUpperLetter(c) then (c as int + 32) as char else c
  }

  /** `s.toUpperCase()` on ASCII text: maps character by character. */
  function ToUpper(s: string): (r: string)
    ensures |r| == |s|
    ensures forall i :: 0 <= i < |s| ==> r[i] == UpperChar(s[i])
  {
    if |s| == 0 then "" else [UpperChar(s[0])] + ToUpper(s[1..])
  }

  /** `s.toLowerCase()` on ASCII text: maps character by character. */
  function ToLower(s: string): (r: string)
    ensures |r| == |s|
    ensures forall i :: 0 <= i < |s| ==> r[i] == LowerChar(s[i])
  {
    if |s| == 0 then "" else [LowerChar(s[0])] + ToLower(s[1..])
  }

  function DigitChar(d: int): (c: char)
    requires 0 <= d < 10
    ensures IsDigit(c)
  {
    ('0' as int + d) as char
  }

  /** Decimal digits of a natural number, most significant first, no leading zero. */
  function NatDigits(n: nat): (s: string)
    ensures |s| >= 1
    ensures forall i :: 0 <= i < |s| ==> IsDigit(s[i])
    ensures |s| > 1 ==> s[0] != '0'
    decreases n
  {
    if n < 10 then [DigitChar(n)] else NatDigits(n / 10) + [DigitChar(n % 10)]
  }

  /** `String(n)` for an integer-valued JavaScript number. */
  function Decimal(n: int): (s: string)
    ensures |s| >= 1
    ensures forall i :: 0 <= i < |s| ==> IsDigit(s[i]) || (i == 0 && s[i] == '-')
    ensures s[0] == '-' <==> n < 0
    ensures n >= 0 ==> s == NatDigits(n)
    ensures n < 0 ==> s == "-" + NatDigits(-n)
  {
    if n < 0 then "-" + NatDigits(-n) else NatDigits(n)
  }

  /** Reads a non-empty digit string, least significant digit last. */
  function ParseNat(s: string): (r: Option<nat>)
    decreases |s|
  {
    if |s| == 0 || !IsDigit(s[|s| - 1]) then None
    else if |s| == 1 then Some(s[0] as int - '0' as int)
    else
      match ParseNat(s[..|s| - 1])
      case None => None
      case Some(high) => Some(high * 10 + (s[|s| - 1] as int - '0' as int))
  }

  /** Reads the output format of `Decimal`. */
  function ParseInt(s: string): Option<int> {
    if |s| > 0 && s[0] == '-' then
      match ParseNat(s[1..])
      case None => None
      case Some(n) => Some(-(n as int))
    else
      match ParseNat(s)
      case None => None
      case Some(n) => Some(n as int)
  }

  lemma {:induction false} ParseNatDigits(n: nat)
    ensures ParseNat(NatDigits(n)) == Some(n)
    decreases n
  {
    if n >= 10 {
      var s := NatDigits(n);
      assert s[..|s| - 1] == NatDigits(n / 10);
      ParseNatDigits(n / 10);
    }
  }

  /** `Decimal` loses nothing: the integer is recovered from its text. */
  lemma DecimalRoundTrip(n: int)
    ensures ParseInt(Decimal(n)) == Some(n)
  {
    if n < 0 {
      assert Decimal(n)[1..] == NatDigits(-n);
      ParseNatDigits(-n);
    } else {
      ParseNatDigits(n);
    }
  }
}

=== FILE: users.dfy ===
/**
 * The account-security state machine of the users controller: registration,
 * e-mail verification, login with attempt counting and lockout, the login code
 * that gates a session, and the two profile updates.
 *
 * Each handler is a pure transition over the user collection, keyed by e-mail.
 * The clock (`now`, milliseconds), the random bytes of a code, the bcrypt salt,
 * the id the database assigns and the outcome of sending mail are parameters.
 */
module Users {
  import opened Wrappers
  import opened Text
  import opened Numbers
  import Otp
  import opened Password
  import opened Session

  type Email = string

  /** Policy constants, in milliseconds where they are durations. */
  const RegistrationCodeMs: int := 10 * 60 * 1000
  const LoginCodeMs: int := 5 * 60 * 1000
  const LockMs: int := 24 * 60 * 60 * 1000
  const HourMs: int := 60 * 60 * 1000
  const MaxAttempts: nat := 5
  const DefaultRole: string := "customer"
  const RegistrationSubject: string := "Bazzar Account Verification Code"
  const LoginSubject: string := "Your Login Verification Code"

  /**
   * A stored account. Absent optional fields are `None`: `lockUntil: null`, an
   * unset code and expiry, and the profile fields never supplied.
   */
  datatype User = User(
    id: UserId,
    name: string,
    email: Email,
    password: PasswordHash,
    role: string,
    isVerified: bool,
    verificationCode: Option<string>,
    codeExpires: Option<int>,
    loginAttempts: nat,
    lockUntil: Option<int>,
    createdAt: int,
    phone: Option<string>,
    image: Option<string>,
    address: Option<string>)

  type Store = map<Email, User>

  /** The user projection returned after login; it has no password field. */
  datatype PublicUser = PublicUser(id: UserId, name: string, email: Email, role: string)

  /** An outgoing message carrying a code (the rendered HTML is not modelled). */
  datatype Mail = Mail(to: Email, subject: string, code: string)

  /** The JSON reply of a handler, one constructor per distinct outcome. */
  datatype Reply =
    | Registered(userId: UserId)
    | EmailVerified
    | LoginCodeSent
    | LoggedIn(token: Token, user: PublicUser)
    | ProfileUpdated
    | PasswordUpdated
    | EmailInUse
    | UserNotFound
    | InvalidVerificationCode
    | CodeExpired
    | AccountLocked(hours: int)
    | TooManyAttempts
    | InvalidPassword(attemptsLeft: int)
    | InvalidOrExpiredCode
    | LoginCodeExpired
    | NoChangesMade
    | OldPasswordMismatch
    | ServerError

  /** The HTTP status each outcome is sent with. */
  function Status(r: Reply): (code: int)
    ensures r.Registered? <==> code == 201
    ensures code == 200 <==> r.EmailVerified? || r.LoginCodeSent? || r.LoggedIn? || r.ProfileUpdated? || r.PasswordUpdated?
    ensures code == 400 <==>
      (r.EmailInUse? || r.InvalidVerificationCode? || r.CodeExpired?
       || r.InvalidOrExpiredCode? || r.LoginCodeExpired? || r.NoChangesMade?)
    ensures code == 401 <==> r.InvalidPassword? || r.OldPasswordMismatch?
    ensures code == 403 <==> r.AccountLocked? || r.TooManyAttempts?
    ensures code == 404 <==> r.UserNotFound?
    ensures code == 500 <==> r.ServerError?
  {
    match r
    case Registered(_) => 201
    case EmailVerified => 200
    case LoginCodeSent => 200
    case LoggedIn(_, _) => 200
    case ProfileUpdated => 200
    case PasswordUpdated => 200
    case EmailInUse => 400
    case UserNotFound => 404
    case InvalidVerificationCode => 400
    case CodeExpired => 400
    case AccountLocked(_) => 403
    case TooManyAttempts => 403
    case InvalidPassword(_) => 401
    case InvalidOrExpiredCode => 400
    case LoginCodeExpired => 400
    case NoChangesMade => 400
    case OldPasswordMismatch => 401
    case ServerError => 500
  }

  /** What a handler produces: its reply, the collection afterwards, and the mail it tried to send. */
  datatype Step = Step(reply: Reply, store: Store, mail: Option<Mail>)

  /**
   * `new Date() > user.codeExpires`: a comparison with an absent expiry is
   * false, so only a present expiry strictly before `now` has expired.
   */
  predicate Expired(codeExpires: Option<int>, now: int) {
    codeExpires.Some? && now > codeExpires.value
  }

  /** `user.lockUntil && user.lockUntil > new Date()`. */
  predicate Locked(lockUntil: Option<int>, now: int) {
    lockUntil.Some? && lockUntil.value > now
  }

  /** Every record is filed under its own e-mail, codes come with an expiry, the counter stays under the threshold. */
  predicate UserConsistent(email: Email, u: User) {
    && u.email == email
    && (u.verificationCode.Some? <==> u.codeExpires.Some?)
    && u.loginAttempts < MaxAttempts
    && (u.verificationCode.Some? ==> Otp.IsOtpCode(u.verificationCode.value))
  }

  predicate Consistent(store: Store) {
    forall e :: e in store ==> UserConsistent(e, store[e])
  }

  /** The database's unique index on `_id`. */
  predicate IdsUnique(store: Store) {
    forall e1, e2 :: e1 in store && e2 in store && e1 != e2 ==> store[e1].id != store[e2].id
  }

  // ---------------------------------------------------------------------------
  // registerUser
  // ---------------------------------------------------------------------------

  /** `registerUser`: refuse a known e-mail, else insert an unverified account and mail its code. */
  function Register(store: Store, name: string, email: Email, password: string, salt: nat,
                    random: seq<Otp.byte>, freshId: UserId, now: int, mailOk: bool): (r: Step)
    requires |random| == Otp.CodeBytes
    ensures email in store ==> r == Step(EmailInUse, store, None)
    ensures email !in store ==>
      && r.store.Keys == store.Keys + {email}
      && (forall e :: e in store ==> r.store[e] == store[e])
      && r.store[email].id == freshId
      && r.store[email].name == name
      && r.store[email].email == email
      && r.store[email].password == Hash(password, salt)
      && r.store[email].role == "customer"
      && !r.store[email].isVerified
      && r.store[email].verificationCode == Some(Otp.Issue(random))
      && Otp.IsOtpCode(r.store[email].verificationCode.value)
      && r.store[email].codeExpires == Some(now + RegistrationCodeMs)
      && r.store[email].loginAttempts == 0
      && r.store[email].lockUntil == None
      && r.store[email].createdAt == now
      && r.store[email].phone == None && r.store[email].image == None && r.store[email].address == None
      && r.mail == Some(Mail(email, RegistrationSubject, Otp.Issue(random)))
      && (r.reply == Registered(freshId) <==> mailOk)
      && (r.reply == ServerError <==> !mailOk)
  {
    if email in store then
      Step(EmailInUse, store, None)
    else
      var code := Otp.Issue(random);
      var user := User(
        id := freshId, name := name, email := email, password := Hash(password, salt),
        role := DefaultRole, isVerified := false,
        verificationCode := Some(code), codeExpires := Some(now + RegistrationCodeMs),
        loginAttempts := 0, lockUntil := None, createdAt := now,
        phone := None, image := None, address := None);
      // The record is written before the mail is sent: a delivery failure
      // reports 500 but leaves the account in place.
      Step(if mailOk then Registered(freshId) else ServerError,
           store[email := user],
           Some(Mail(email, RegistrationSubject, code)))
  }

  // ---------------------------------------------------------------------------
  // verifyOTP
  // ---------------------------------------------------------------------------

  /** `verifyOTP`: unknown user, then code mismatch, then expiry; success marks the account verified. */
  function VerifyOtp(store: Store, email: Email, otp: Option<string>, now: int): (r: Step)
    ensures r.mail == None
    ensures email !in store ==> r.reply == UserNotFound && r.store == store
    ensures email in store && store[email].verificationCode != otp ==>
      r.reply == InvalidVerificationCode && r.store == store
    ensures email in store && store[email].verificationCode == otp && Expired(store[email].codeExpires, now) ==>
      r.reply == CodeExpired && r.store == store
    ensures r.reply == EmailVerified <==>
      email in store && store[email].verificationCode == otp && !Expired(store[email].codeExpires, now)
    ensures r.reply == EmailVerified ==>
      && r.store.Keys == store.Keys
      && (forall e :: e in store && e != email ==> r.store[e] == store[e])
      && r.store[email].isVerified
      && r.store[email].verificationCode == None
      && r.store[email].codeExpires == None
      && r.store[email].(isVerified := store[email].isVerified,
                         verificationCode := store[email].verificationCode,
                         codeExpires := store[email].codeExpires) == store[email]
  {
    if email !in store then
      Step(UserNotFound, store, None)
    else
      var user := store[email];
      if user.verificationCode != otp then
        Step(InvalidVerificationCode, store, None)
      else if Expired(user.codeExpires, now) then
        Step(CodeExpired, store, None)
      else
        var verified := user.(isVerified := true, verificationCode := None, codeExpires := None);
        Step(EmailVerified, store[email := verified], None)
  }

  // ---------------------------------------------------------------------------
  // loginUser
  // ---------------------------------------------------------------------------

  /** Whole hours left on a lock, rounded up, as the 403 message reports them. */
  function RemainingHours(lockUntil: int, now: int): (h: int)
    requires lockUntil > now
    ensures h >= 1
    ensures (h - 1) * HourMs < lockUntil - now <= h * HourMs
  {
    CeilDiv(lockUntil - now, HourMs)
  }

  /**
   * `loginUser`: refuse while locked; on a wrong password count the failure and
   * lock at the fifth; on a right one store a fresh five-minute code and mail it.
   * It never issues a session.
   */
  function Login(store: Store, email: Email, password: string, random: seq<Otp.byte>,
                 now: int, mailOk: bool): (r: Step)
    requires |random| == Otp.CodeBytes
    ensures !r.reply.LoggedIn?
    ensures email !in store ==> r == Step(UserNotFound, store, None)
    ensures email in store && Locked(store[email].lockUntil, now) ==>
      && r.store == store
      && r.mail == None
      && r.reply.AccountLocked?
      && r.reply.hours >= 1
      && (r.reply.hours - 1) * HourMs < store[email].lockUntil.value - now <= r.reply.hours * HourMs
    ensures email in store && !Locked(store[email].lockUntil, now) ==>
      && r.store.Keys == store.Keys
      && (forall e :: e in store && e != email ==> r.store[e] == store[e])
    ensures email in store && !Locked(store[email].lockUntil, now)
            && !Matches(password, store[email].password) ==>
      var u := store[email];
      && r.mail == None
      && (u.loginAttempts + 1 >= MaxAttempts ==>
            && r.reply == TooManyAttempts
            && r.store[email] == u.(loginAttempts := 0, lockUntil := Some(now + LockMs)))
      && (u.loginAttempts + 1 < MaxAttempts ==>
            && r.reply == InvalidPassword(MaxAttempts - (u.loginAttempts + 1))
            && r.store[email] == u.(loginAttempts := u.loginAttempts + 1))
    ensures email in store && !Locked(store[email].lockUntil, now)
            && Matches(password, store[email].password) ==>
      var u := store[email];
      && r.store[email] == u.(verificationCode := Some(Otp.Issue(random)),
                              codeExpires := Some(now + LoginCodeMs),
                              loginAttempts := 0)
      && r.store[email].lockUntil == u.lockUntil
      && r.store[email].isVerified == u.isVerified
      && r.mail == Some(Mail(email, LoginSubject, Otp.Issue(random)))
      && (r.reply == LoginCodeSent <==> mailOk)
      && (r.reply == ServerError <==> !mailOk)
  {
    if email !in store then
      Step(UserNotFound, store, None)
    else
      var user := store[email];
      if Locked(user.lockUntil, now) then
        Step(AccountLocked(RemainingHours(user.lockUntil.value, now)), store, None)
      else if !Matches(password, user.password) then
        var attempts := user.loginAttempts + 1;
        if attempts >= MaxAttempts then
          Step(TooManyAttempts, store[email := user.(loginAttempts := 0, lockUntil := Some(now + LockMs))], None)
        else
          Step(InvalidPassword(MaxAttempts - attempts), store[email := user.(loginAttempts := attempts)], None)
      else
        var code := Otp.Issue(random);
        var pending := user.(verificationCode := Some(code), codeExpires := Some(now + LoginCodeMs), loginAttempts := 0);
        Step(if mailOk then LoginCodeSent else ServerError,
             store[email := pending],
             Some(Mail(email, LoginSubject, code)))
  }

  // ---------------------------------------------------------------------------
  // verifyLoginOTP
  // ---------------------------------------------------------------------------

  /**
   * `verifyLoginOTP`: an unknown user and a mismatched code give the same reply;
   * only a matching code is checked for expiry; success clears the code and
   * mints a seven-day session bound to {id, email, role}.
   */
  function VerifyLoginOtp(store: Store, email: Email, otp: Option<string>, now: int): (r: Step)
    ensures r.mail == None
    ensures email !in store || store[email].verificationCode != otp ==>
      r.reply == InvalidOrExpiredCode && r.store == store
    ensures email in store && store[email].verificationCode == otp && Expired(store[email].codeExpires, now) ==>
      r.reply == LoginCodeExpired && r.store == store
    ensures r.reply.LoggedIn? <==>
      email in store && store[email].verificationCode == otp && !Expired(store[email].codeExpires, now)
    ensures r.reply.LoggedIn? ==>
      var u := store[email];
      && r.store == store[email := u.(verificationCode := None, codeExpires := None)]
      && r.reply.token.claims == Claims(u.id, u.email, u.role)
      && r.reply.token.expiresAt - r.reply.token.issuedAt == SessionSeconds
      && r.reply.token.issuedAt * SecondMs <= now < r.reply.token.issuedAt * SecondMs + SecondMs
      && r.reply.user == PublicUser(u.id, u.name, u.email, u.role)
  {
    if email !in store || store[email].verificationCode != otp then
      Step(InvalidOrExpiredCode, store, None)
    else
      var user := store[email];
      if Expired(user.codeExpires, now) then
        Step(LoginCodeExpired, store, None)
      else
        var token := Sign(Claims(user.id, user.email, user.role), now);
        var cleared := user.(verificationCode := None, codeExpires := None);
        Step(LoggedIn(token, PublicUser(user.id, user.name, user.email, user.role)),
             store[email := cleared], None)
  }

  /**
   * `verifyLoginOTP` as evidently intended: a session needs a code that was
   * actually issued and actually submitted. It differs from `VerifyLoginOtp`
   * only in refusing an absent `otp` or an absent stored code.
   */
  function VerifyLoginOtpStrict(store: Store, email: Email, otp: Option<string>, now: int): (r: Step)
    ensures r.mail == None
    ensures r.reply.LoggedIn? ==>
      && email in store
      && otp.Some?
      && store[email].verificationCode == otp
      && !Expired(store[email].codeExpires, now)
    ensures otp.None? ==> r.reply == InvalidOrExpiredCode && r.store == store
    ensures otp.Some? ==> r == VerifyLoginOtp(store, email, otp, now)
  {
    if otp.None? || email !in store || store[email].verificationCode.None? then
      Step(InvalidOrExpiredCode, store, None)
    else
      VerifyLoginOtp(store, email, otp, now)
  }

  // ---------------------------------------------------------------------------
  // updateProfile
  // ---------------------------------------------------------------------------

  /** The optional body fields of a profile update. */
  datatype ProfileChange = ProfileChange(name: Option<string>, phone: Option<string>,
                                         image: Option<string>, address: Option<string>)

  /** The `$set` document: each truthy field overwrites the stored one. */
  function ApplyProfile(u: User, c: ProfileChange): (v: User)
    ensures v.name == (if Truthy(c.name) then c.name.value else u.name)
    ensures v.phone == (if Truthy(c.phone) then c.phone else u.phone)
    ensures v.image == (if Truthy(c.image) then c.image else u.image)
    ensures v.address == (if Truthy(c.address) then c.address else u.address)
    ensures v.(name := u.name, phone := u.phone, image := u.image, address := u.address) == u
  {
    u.(name := if Truthy(c.name) then c.name.value else u.name,
       phone := if Truthy(c.phone) then c.phone else u.phone,
       image := if Truthy(c.image) then c.image else u.image,
       address := if Truthy(c.address) then c.address else u.address)
  }

  /**
   * `updateProfile` for the id in the caller's session. The update is applied to
   * every record carrying that id (at most one under `IdsUnique`); "No changes
   * made" is reported exactly when nothing was modified.
   */
  function UpdateProfile(store: Store, userId: UserId, change: ProfileChange): (r: Step)
    ensures r.mail == None
    ensures r.reply == ProfileUpdated || r.reply == NoChangesMade
    ensures r.store.Keys == store.Keys
    ensures forall e :: e in store && store[e].id != userId ==> r.store[e] == store[e]
    ensures forall e :: e in store && store[e].id == userId ==> r.store[e] == ApplyProfile(store[e], change)
    ensures r.reply == NoChangesMade <==> r.store == store
    ensures !Truthy(change.name) && !Truthy(change.phone) && !Truthy(change.image) && !Truthy(change.address) ==>
      r.reply == NoChangesMade
  {
    var updated := map e | e in store :: if store[e].id == userId then ApplyProfile(store[e], change) else store[e];
    Step(if updated == store then NoChangesMade else ProfileUpdated, updated, None)
  }

  // ---------------------------------------------------------------------------
  // updatePassword
  // ---------------------------------------------------------------------------

  /**
   * `updatePassword` for the id in the caller's session: a missing record makes
   * `user.password` throw (500); a wrong old password is refused (401); otherwise
   * the hash is replaced.
   */
  function UpdatePassword(store: Store, userId: UserId, oldPassword: string, newPassword: string,
                          salt: nat): (r: Step)
    ensures r.mail == None
    ensures (forall e :: e in store ==> store[e].id != userId) ==> r == Step(ServerError, store, None)
    ensures r.store.Keys == store.Keys
    ensures forall e :: e in store && (store[e].id != userId || !Matches(oldPassword, store[e].password)) ==>
      r.store[e] == store[e]
    ensures forall e :: e in store && store[e].id == userId && Matches(oldPassword, store[e].password) ==>
      r.store[e] == store[e].(password := Hash(newPassword, salt))
    ensures r.reply == PasswordUpdated <==>
      exists e :: e in store && store[e].id == userId && Matches(oldPassword, store[e].password)
    ensures r.reply == OldPasswordMismatch ==> r.store == store
    ensures (exists e :: e in store && store[e].id == userId)
            && !(exists e :: e in store && store[e].id == userId && Matches(oldPassword, store[e].password)) ==>
      r == Step(OldPasswordMismatch, store, None)
  {
    if forall e :: e in store ==> store[e].id != userId then
      Step(ServerError, store, None)
    else if !exists e :: e in store && store[e].id == userId && Matches(oldPassword, store[e].password) then
      Step(OldPasswordMismatch, store, None)
    else
      var updated := map e | e in store ::
        if store[e].id == userId && Matches(oldPassword, store[e].password)
        then store[e].(password := Hash(newPassword, salt))
        else store[e];
      Step(PasswordUpdated, updated, None)
  }
}

=== FILE: users_properties.dfy ===
/**
 * Properties of the account-security state machine that relate several
 * handler calls: the record invariants every handler keeps, the lockout after
 * five wrong passwords, the registration-to-session round trip, and the
 * behaviours that follow from the shared code field and absent values.
 */
module UserProperties {
  import opened Wrappers
  import Otp
  import opened Password
  import opened Session
  import opened Users

  /** Any request a client can send, with the values the server draws for it. */
  datatype Request =
    | RegisterRequest(name: string, email: Email, password: string, salt: nat,
                      random: seq<Otp.byte>, freshId: UserId, mailOk: bool)
    | VerifyOtpRequest(email: Email, otp: Option<string>)
    | LoginRequest(email: Email, password: string, random: seq<Otp.byte>, mailOk: bool)
    | VerifyLoginOtpRequest(email: Email, otp: Option<string>)
    | UpdateProfileRequest(userId: UserId, change: ProfileChange)
    | UpdatePasswordRequest(userId: UserId, oldPassword: string, newPassword: string, salt: nat)

  /** `randomBytes(4)` always yields four bytes. */
  predicate WellDrawn(req: Request) {
    (req.RegisterRequest? || req.LoginRequest?) ==> |req.random| == Otp.CodeBytes
  }

  /** Dispatches a request to its handler. */
  function Handle(store: Store, req: Request, now: int): Step
    requires WellDrawn(req)
  {
    match req
    case RegisterRequest(name, email, password, salt, random, freshId, mailOk) =>
      Register(store, name, email, password, salt, random, freshId, now, mailOk)
    case VerifyOtpRequest(email, otp) => VerifyOtp(store, email, otp, now)
    case LoginRequest(email, password, random, mailOk) => Login(store, email, password, random, now, mailOk)
    case VerifyLoginOtpRequest(email, otp) => VerifyLoginOtp(store, email, otp, now)
    case UpdateProfileRequest(userId, change) => UpdateProfile(store, userId, change)
    case UpdatePasswordRequest(userId, oldPassword, newPassword, salt) =>
      UpdatePassword(store, userId, oldPassword, newPassword, salt)
  }

  /** Every handler keeps the record invariants. */
  lemma HandlePreservesConsistent(store: Store, req: Request, now: int)
    requires WellDrawn(req)
    requires Consistent(store)
    ensures Consistent(Handle(store, req, now).store)
  {
  }

  /** Every handler keeps ids unique, given that the database draws a fresh id at insertion. */
  lemma HandlePreservesIdsUnique(store: Store, req: Request, now: int)
    requires WellDrawn(req)
    requires IdsUnique(store)
    requires req.RegisterRequest? ==> forall e :: e in store ==> store[e].id != req.freshId
    ensures IdsUnique(Handle(store, req, now).store)
  {
    var s' := Handle(store, req, now).store;
    forall e1, e2 | e1 in s' && e2 in s' && e1 != e2
      ensures s'[e1].id != s'[e2].id
    {
      if !(req.RegisterRequest? && req.email !in store) {
        // No other handler adds a record or changes an id.
        assert s'[e1].id == store[e1].id && s'[e2].id == store[e2].id;
      }
    }
  }

  /** A timed request sequence, applied in order. */
  function Run(store: Store, trace: seq<(Request, int)>): Store
    requires forall i :: 0 <= i < |trace| ==> WellDrawn(trace[i].0)
    decreases |trace|
  {
    if |trace| == 0 then store
    else Run(Handle(store, trace[0].0, trace[0].1).store, trace[1..])
  }

  lemma {:induction false} RunPreservesConsistent(store: Store, trace: seq<(Request, int)>)
    requires forall i :: 0 <= i < |trace| ==> WellDrawn(trace[i].0)
    requires Consistent(store)
    ensures Consistent(Run(store, trace))
    decreases |trace|
  {
    if |trace| > 0 {
      HandlePreservesConsistent(store, trace[0].0, trace[0].1);
      RunPreservesConsistent(Handle(store, trace[0].0, trace[0].1).store, trace[1..]);
    }
  }

  /**
   * Whatever requests arrive, in whatever order and at whatever times, starting
   * from a collection that satisfies the invariants (the empty one does), every
   * account's failed-login counter stays within 0..4 and its stored code, if
   * any, is an eight-character upper-case hexadecimal code.
   */
  lemma AttemptsStayBounded(store: Store, trace: seq<(Request, int)>, e: Email)
    requires forall i :: 0 <= i < |trace| ==> WellDrawn(trace[i].0)
    requires Consistent(store)
    requires e in Run(store, trace)
    ensures Run(store, trace)[e].loginAttempts <= 4
    ensures Run(store, trace)[e].verificationCode.Some? ==> Otp.IsOtpCode(Run(store, trace)[e].verificationCode.value)
  {
    RunPreservesConsistent(store, trace);
    assert UserConsistent(e, Run(store, trace)[e]);
  }

  // ---------------------------------------------------------------------------
  // Lockout
  // ---------------------------------------------------------------------------

  /** Repeated logins with one password at the given times. */
  function Attempts(store: Store, email: Email, password: string, random: seq<Otp.byte>,
                    times: seq<int>): Store
    requires |random| == Otp.CodeBytes
    decreases |times|
  {
    if |times| == 0 then store
    else Attempts(Login(store, email, password, random, times[0], true).store, email, password, random, times[1..])
  }

  /** Wrong passwords below the threshold only raise the counter. */
  lemma {:induction false} WrongAttemptsCount(store: Store, email: Email, password: string,
                                              random: seq<Otp.byte>, times: seq<int>)
    requires |random| == Otp.CodeBytes
    requires email in store
    requires !Matches(password, store[email].password)
    requires store[email].loginAttempts + |times| < MaxAttempts
    requires forall i :: 0 <= i < |times| ==> !Locked(store[email].lockUntil, times[i])
    ensures email in Attempts(store, email, password, random, times)
    ensures Attempts(store, email, password, random, times)[email]
            == store[email].(loginAttempts := store[email].loginAttempts + |times|)
    decreases |times|
  {
    if |times| > 0 {
      var next := Login(store, email, password, random, times[0], true).store;
      assert next[email] == store[email].(loginAttempts := store[email].loginAttempts + 1);
      WrongAttemptsCount(next, email, password, random, times[1..]);
    }
  }

  /**
   * Five consecutive wrong passwords on an unlocked account with a clean counter
   * lock it for 24 hours from the fifth attempt and reset the counter; while that
   * lock lasts, a login is refused even with the right password.
   */
  lemma FiveFailuresLock(store: Store, email: Email, wrong: string, right: string,
                         random: seq<Otp.byte>, times: seq<int>, later: int)
    requires |random| == Otp.CodeBytes
    requires email in store
    requires store[email].loginAttempts == 0
    requires !Matches(wrong, store[email].password)
    requires |times| == 5
    requires forall i :: 0 <= i < 5 ==> !Locked(store[email].lockUntil, times[i])
    requires later < times[4] + LockMs
    ensures email in Attempts(store, email, wrong, random, times)
    ensures Attempts(store, email, wrong, random, times)[email].lockUntil == Some(times[4] + LockMs)
    ensures Attempts(store, email, wrong, random, times)[email].loginAttempts == 0
    ensures Login(Attempts(store, email, wrong, random, times), email, right, random, later, true).reply.AccountLocked?
  {
    var before := Attempts(store, email, wrong, random, times[..4]);
    WrongAttemptsCount(store, email, wrong, random, times[..4]);
    assert before[email].loginAttempts == 4;
    AttemptsSplit(store, email, wrong, random, times[..4], [times[4]]);
    assert times[..4] + [times[4]] == times;
    var step := Login(before, email, wrong, random, times[4], true);
    assert step.reply == TooManyAttempts;
  }

  lemma {:induction false} AttemptsSplit(store: Store, email: Email, password: string,
                                         random: seq<Otp.byte>, xs: seq<int>, ys: seq<int>)
    requires |random| == Otp.CodeBytes
    ensures Attempts(store, email, password, random, xs + ys)
            == Attempts(Attempts(store, email, password, random, xs), email, password, random, ys)
    decreases |xs|
  {
    if |xs| == 0 {
      assert xs + ys == ys;
    } else {
      assert (xs + ys)[0] == xs[0];
      assert (xs + ys)[1..] == xs[1..] + ys;
      AttemptsSplit(Login(store, email, password, random, xs[0], true).store, email, password, random, xs[1..], ys);
    }
  }

  // ---------------------------------------------------------------------------
  // Round trip
  // ---------------------------------------------------------------------------

  /**
   * Register, verify with the mailed code in time, log in with the password and
   * submit the mailed login code in time: the session names the registered
   * e-mail, the fresh id and the customer role, the account ends verified with
   * no pending code. The corrected login verification accepts the same run.
   */
  lemma RegisterToSession(store: Store, name: string, email: Email, password: string, salt: nat,
                          r1: seq<Otp.byte>, r2: seq<Otp.byte>, id: UserId,
                          t0: int, t1: int, t2: int, t3: int)
    requires email !in store
    requires |r1| == Otp.CodeBytes && |r2| == Otp.CodeBytes
    requires t1 <= t0 + RegistrationCodeMs
    requires t3 <= t2 + LoginCodeMs
    ensures
      var s1 := Register(store, name, email, password, salt, r1, id, t0, true);
      var s2 := VerifyOtp(s1.store, email, Some(s1.mail.value.code), t1);
      var s3 := Login(s2.store, email, password, r2, t2, true);
      var s4 := VerifyLoginOtp(s3.store, email, Some(s3.mail.value.code), t3);
      && s1.reply == Registered(id)
      && s2.reply == EmailVerified
      && s3.reply == LoginCodeSent
      && s4.reply.LoggedIn?
      && s4.reply.token.claims == Claims(id, email, "customer")
      && s4.reply.user == PublicUser(id, name, email, "customer")
      && s4.store[email].isVerified
      && s4.store[email].verificationCode == None
      && VerifyLoginOtpStrict(s3.store, email, Some(s3.mail.value.code), t3) == s4
  {
  }

  // ---------------------------------------------------------------------------
  // The shared code field and absent values
  // ---------------------------------------------------------------------------

  /** A verified code cannot be used twice: the second attempt is a mismatch. */
  lemma VerifyOnce(store: Store, email: Email, code: string, t1: int, t2: int)
    requires VerifyOtp(store, email, Some(code), t1).reply == EmailVerified
    ensures VerifyOtp(VerifyOtp(store, email, Some(code), t1).store, email, Some(code), t2).reply
            == InvalidVerificationCode
  {
  }

  /** Expiry is strict: a code submitted at exactly its expiry instant is accepted. */
  lemma ExpiryIsStrict(store: Store, email: Email, code: string)
    requires email in store
    requires store[email].verificationCode == Some(code) && store[email].codeExpires.Some?
    ensures VerifyOtp(store, email, Some(code), store[email].codeExpires.value).reply == EmailVerified
    ensures VerifyLoginOtp(store, email, Some(code), store[email].codeExpires.value).reply.LoggedIn?
    ensures VerifyOtp(store, email, Some(code), store[email].codeExpires.value + 1).reply == CodeExpired
  {
  }

  /** Registration and login share one code field, so a login code also verifies the e-mail. */
  lemma LoginCodeVerifiesEmail(store: Store, email: Email, password: string, random: seq<Otp.byte>,
                               now: int, later: int)
    requires |random| == Otp.CodeBytes
    requires Login(store, email, password, random, now, true).reply == LoginCodeSent
    requires later <= now + LoginCodeMs
    ensures VerifyOtp(Login(store, email, password, random, now, true).store, email,
                      Some(Otp.Issue(random)), later).reply == EmailVerified
  {
  }

  /** A new login code replaces a pending registration code: the old one no longer verifies. */
  lemma LoginCodeReplacesRegistrationCode(store: Store, email: Email, password: string,
                                          random: seq<Otp.byte>, now: int, later: int, stale: string)
    requires |random| == Otp.CodeBytes
    requires Login(store, email, password, random, now, true).reply == LoginCodeSent
    requires stale != Otp.Issue(random)
    ensures VerifyOtp(Login(store, email, password, random, now, true).store, email, Some(stale), later).reply
            == InvalidVerificationCode
  {
  }

  /** Login never reads the verification flag: an unverified account logs in exactly as a verified one. */
  lemma LoginIgnoresVerification(store: Store, email: Email, password: string, random: seq<Otp.byte>,
                                 now: int, mailOk: bool, flag: bool)
    requires |random| == Otp.CodeBytes
    requires email in store
    ensures Login(store[email := store[email].(isVerified := flag)], email, password, random, now, mailOk).reply
            == Login(store, email, password, random, now, mailOk).reply
  {
  }

  /**
   * As written, a login verification that omits `otp` succeeds on any account
   * whose code has been cleared: right after e-mail verification, anyone who
   * knows the address obtains a session without password or code, at any time.
   */
  lemma AbsentOtpIssuesSession(store: Store, email: Email, code: string, t1: int, t2: int)
    requires Consistent(store)
    requires VerifyOtp(store, email, Some(code), t1).reply == EmailVerified
    ensures VerifyLoginOtp(VerifyOtp(store, email, Some(code), t1).store, email, None, t2).reply.LoggedIn?
    ensures VerifyLoginOtp(VerifyOtp(store, email, Some(code), t1).store, email, None, t2).reply.token.claims.email
            == email
  {
  }

  /**
   * The same absent-value comparison in `verifyOTP`: an account that logged in
   * without ever verifying its e-mail has its code cleared by the login
   * verification, after which a request without a code verifies the address
   * for the first time.
   */
  lemma AbsentOtpVerifiesFirstTime(store: Store, name: string, email: Email, password: string, salt: nat,
                                   r1: seq<Otp.byte>, r2: seq<Otp.byte>, id: UserId,
                                   t0: int, t1: int, t2: int)
    requires email !in store
    requires |r1| == Otp.CodeBytes && |r2| == Otp.CodeBytes
    requires t1 <= t0 + LoginCodeMs
    ensures
      var s1 := Register(store, name, email, password, salt, r1, id, t0, true);
      var s2 := Login(s1.store, email, password, r2, t0, true);
      var s3 := VerifyLoginOtp(s2.store, email, Some(Otp.Issue(r2)), t1);
      var s4 := VerifyOtp(s3.store, email, None, t2);
      && s3.reply.LoggedIn?
      && !s3.store[email].isVerified
      && s4.reply == EmailVerified
      && s4.store[email].isVerified
  {
  }

  /**
   * The corrected check grants a session only for a code that is stored, is a
   * genuine eight-character code and is submitted before it expires, and the
   * same request cannot be replayed.
   */
  lemma StrictNeedsIssuedCode(store: Store, email: Email, otp: Option<string>, now: int, later: int)
    requires Consistent(store)
    requires VerifyLoginOtpStrict(store, email, otp, now).reply.LoggedIn?
    ensures otp.Some? && Otp.IsOtpCode(otp.value)
    ensures store[email].codeExpires.Some? && now <= store[email].codeExpires.value
    ensures !VerifyLoginOtpStrict(VerifyLoginOtpStrict(store, email, otp, now).store, email, otp, later).reply.LoggedIn?
  {
  }
}

=== FILE: wrappers.dfy ===
/**
 * Optional values. `None` is a field or body key that is absent (`undefined` in
 * JavaScript). A stored `lockUntil: null` is `None` too, since it is only ever
 * tested for truthiness; a submitted JSON `null` is not modelled.
 */
module Wrappers {

  datatype Option<+T> = None | Some(value: T)
}
